=== FILE: README.md ===
# Order workflow of an e-commerce backend, in Dafny

This project models the order service of an e-commerce backend
(`src/services/OrderService.js`). The service:

- reserves product stock for a new order and persists the order;
- looks orders up, updates, cancels and deletes them;
- gives each authenticated user scoped access to their own orders;
- builds the filter and page count for the two order-list endpoints.

The database is an immutable `Store` with three maps: products by id
(`countInStock`, `sold`), orders by id, and payment types by id. Each
exported service function is a pure transition. It returns a `Step`: an
`Outcome` together with the store left behind. The `Outcome` is either a
resolved envelope `{status, statusMessage, typeError, message, data}` or a
rejected promise. A rejection keeps any side effect already made: stock
reserved before a later failure stays reserved, as in the source.

Modules, leaf first:

- `Values` (`values.dfy`): optional fields, and the JavaScript truthiness
  behind `x || y` and `if (x)`.
- `Text` (`text.dfy`): `split('|')` and `join(',')`, with both round-trip
  laws.
- `Replies` (`replies.dfy`): the envelope, its abstract status codes, and
  the resolve/reject outcome.
- `Stock` (`stock.dfy`): the conditional reservation of `updateProductStock`,
  the restoration done by `deleteOrderProduct`, and their folds over a line-item
  list.
- `Orders` (`orders.dfy`): order, address, payment type, store, and the
  status constants.
- `OrderService` (`order_service.dfy`): the exported operations.
- `OrderLaws` (`order_laws.dfy`): laws across operations, plus worked
  examples.
- `OrderQuery` (`order_query.dfy`): query and page-count construction for
  `getAllOrder` and `getAllOrderOfMe`.

Behaviour kept exactly as the code has it:

- In `createOrder`, stock that was reserved is not rolled back when another
  line item fails. The reservations stay applied even when no order is
  created (`CreateOrder`, `ExampleShortageKeepsEarlierReservation`).
- The failure list keeps only results whose `id` is truthy. A refused
  reservation for an empty product id is therefore not reported. The
  create/delete round trip is stated for non-empty product ids (`ProperIds`).
- In `getOrderDetails`, the first `resolve` wins. A missing order yields the
  not-found error envelope, and the later success `resolve` has no effect.
- In `deleteOrderProduct`, a missing order likewise ends with the not-found
  envelope and leaves the store unchanged.
- A payment-method id with no payment-type record makes `findPayment.type`
  throw. The call rejects, and no order is stored.
- `updateOrder` overwrites a field only with a truthy value. A number,
  string or date field can never be set to a falsy value, so `isPaid: 0`
  cannot bring `isPaid` back to 0 (`MergeCannotClear`). List and object
  fields can be emptied: an empty item list or address is truthy and
  replaces the old one (`MergeCanEmptyItems`). Cancellation is blocked
  only by `isPaid` equal to 1, so updating `isPaid` to another truthy
  value such as 2 lifts the block (`RepaidOrderCanBeCancelled`).
- `getAllOrderOfMe` has no fetch-all escape. With page and limit both -1,
  its page count is `-totalCount` (`MyOrdersHasNoFetchAll`).

## Model

| member | source | states |
|---|---|---|
| `Stock.Reserve` | src/services/OrderService.js:9-43 | the reservation succeeds iff the store does not fail, the product exists and its stock is at least the amount; on success stock drops by the amount, sold rises by it, the new stock is non-negative and no other product changes; on failure the store is unchanged and the result is tagged with the product id, Invalid for a shortage and InternalError for a store error |
| `Stock.Restore` | src/services/OrderService.js:180-187 | an existing product gets the amount back in stock and off sold; a missing product is skipped; no other product changes |
| `Stock.ReserveAll` | src/services/OrderService.js:64-65 | one result per line item, in item order; a refused result carries its item's product id; faulty items are refused; each product loses from stock and gains in sold exactly the amounts granted to it, so stock plus sold is conserved and non-negative stock stays non-negative |
| `Stock.RestoreAll` | src/services/OrderService.js:178-190 | each existing product regains the total amount the items ask of it, and sold drops by the same amount; the set of products is unchanged |
| `Stock.GrantedIsDemandWhenAllReserved` | src/services/OrderService.js:64-65 | when every reservation succeeds, the amount granted to a product is the full amount the items ask of it |
| `Stock.LedgerStep` | src/services/OrderService.js:64-65 | one more reservation after the first items keeps the ledger: each product's counters still differ from the start by exactly the amounts granted, stock plus sold is conserved, refused results carry their item's id and faulty items are refused |
| `Stock.ReserveAllPrefix` | src/services/OrderService.js:64-65 | the results for the first k items are the first k results of the whole order: a later item never changes an earlier outcome |
| `Stock.ReservedInTurn` | src/services/OrderService.js:11-13 | item k's result is the reservation against the counters the items before it left; so it is reserved iff it meets no store error and those counters still hold its product with at least its amount |
| `Stock.SufficientStockReservesAll` | src/services/OrderService.js:11-13 | when every product exists, no store error occurs, amounts are non-negative and each product's stock covers the whole order's demand for it, every reservation succeeds |
| `Stock.ShortItemIsRefused` | src/services/OrderService.js:11-13 | with non-negative amounts, an item whose product is missing or whose amount exceeds the product's starting stock is refused |
| `Stock.RestoreUndoesReserve` | src/services/OrderService.js:11-13 | restoring an item right after a successful reservation returns the products to their exact starting state |
| `Stock.ReserveAllTakesDemand` | src/services/OrderService.js:11-13 | when every reservation succeeds, each product's stock drops and sold rises by exactly the items' total amount for it, and stock plus sold is conserved |
| `Stock.RestoreAllUndoesReserveAll` | src/services/OrderService.js:178-190 | reserving every item of an order and then restoring the same items gives back the original products |
| `OrderService.FailedIds` | src/services/OrderService.js:66-71 | the reported ids are exactly the non-empty ids of the refused reservations; the list is empty iff every refused reservation has an empty id |
| `OrderService.FailedIdsConcat` | src/services/OrderService.js:66-71 | the failure list of two runs of results is the first run's list followed by the second's, so ids are reported in item order |
| `OrderService.CreateOrder` | src/services/OrderService.js:45-126 | reservations stay applied whatever the outcome; any reported shortage resolves an InternalError envelope with no data whose message names exactly the failing ids joined by commas; with no shortage, an unknown payment method rejects, and otherwise a taken id rejects as a duplicate; exactly one order is created iff there is no shortage, the payment method resolves and the id is free, and otherwise the orders are unchanged; a created order is returned in the ActionSuccess envelope with message "Success", statusMessage Success and an empty typeError; the new order copies items, owner, address, prices, isPaid and paidAt, is not delivered, stores the given payment and delivery method when it is non-empty and none otherwise, and has status 0 iff a payment method is given whose type is not pay-later, otherwise the default |
| `OrderService.InitialStatus` | src/services/OrderService.js:99-108 | the status is 0 (awaiting payment) exactly when a payment method is given whose type is not pay-later; otherwise it is the document default |
| `OrderService.GetOrderDetails` | src/services/OrderService.js:128-154 | success with the order iff the order exists, in the GetSuccess envelope; a missing order gives exactly the Invalid "The product is not existed" envelope with no data |
| `OrderService.GetDetailsOrderOfMe` | src/services/OrderService.js:509-562 | success iff the order exists and belongs to the user; a payload is only ever the user's own order; each outcome is the source's exact envelope: a missing order gives Invalid "The product is not existed", an owner mismatch gives Unauthorized "You no has permission", both with no data, and the owner gets the GetSuccess envelope with the order |
| `OrderService.DeleteOrderProduct` | src/services/OrderService.js:156-203 | a missing order gives exactly the Invalid "The order product is not existed" envelope with no data and leaves the store unchanged; otherwise the order is removed and returned, and every existing product regains the items' total amount in stock and loses it from sold |
| `OrderService.Merge` | src/services/OrderService.js:221-231 | each of the ten fields takes the patch value iff it is truthy (any list or object, a non-empty string, a non-zero number) and keeps the old value otherwise; owner, status and delivery flag never change |
| `OrderService.UpdateOrder` | src/services/OrderService.js:205-246 | a missing order rejects and leaves the store unchanged; otherwise the merged order replaces the stored one and is returned in the ActionSuccess "Order updated successfully" envelope, with nothing else changed |
| `OrderService.CancelOrder` | src/services/OrderService.js:248-287 | success iff the order exists and isPaid is not 1; a missing order and a paid order each give their exact Invalid envelope with no data and change nothing; a success sets status to 3, changes nothing else and returns the cancelled order in the ActionSuccess "Order cancelled successfully" envelope |
| `OrderService.CancelOrderOfMe` | src/services/OrderService.js:564-614 | success iff the order exists, belongs to the user and is not paid; a missing order gives the Invalid not-found envelope, an owner mismatch the Unauthorized envelope, and the owner's paid order the Invalid paid envelope, each with no data and no change; a success sets status to 3 and returns the cancelled order in the ActionSuccess envelope |
| `OrderLaws.NoFailureMeansAllReserved` | src/services/OrderService.js:66-67 | with non-empty product ids, an empty failure list means every reservation succeeded, and conversely |
| `OrderLaws.CreateThenDeleteRestoresStore` | src/services/OrderService.js:170-190 | creating an order and then deleting it gives back the original store: counters, orders and payment types |
| `OrderLaws.CreateOrderTakesDemand` | src/services/OrderService.js:64-67 | on a successful creation, each product's stock drops and sold rises by exactly the order's total amount for it |
| `OrderLaws.SufficientStockCreatesOrder` | src/services/OrderService.js:64-109 | with existing products, no store error, non-negative amounts, enough stock for the whole order, a resolvable payment method and a fresh id, the order is created |
| `OrderLaws.ShortItemIsReported` | src/services/OrderService.js:64-71 | with non-negative amounts, an item with a non-empty product id that is missing or asks for more than its product's starting stock is named in the out-of-stock reply |
| `OrderLaws.CancelOrderOfMeAsOwner` | src/services/OrderService.js:579-602 | for the order's owner, the owner-scoped cancellation equals the plain one |
| `OrderLaws.CancelOrderOfMeChecksOwnerFirst` | src/services/OrderService.js:579-599 | a stranger cancelling a paid order gets Unauthorized, not the paid-order error |
| `OrderLaws.CancelOrderIdempotent` | src/services/OrderService.js:263-275 | cancelling a cancelled order succeeds again and leaves the store as the first cancellation left it |
| `OrderLaws.GetDetailsOrderOfMeAsOwner` | src/services/OrderService.js:538-554 | for the order's owner, the owner-scoped lookup equals the plain lookup, up to the `populate` projection the owner-scoped lookup applies, which is not modelled |
| `OrderLaws.MergeIdempotent` | src/services/OrderService.js:221-231 | applying the same update twice equals applying it once |
| `OrderLaws.MergeFalsyPatchKeepsOrder` | src/services/OrderService.js:221-231 | an update whose fields are all missing or falsy leaves the order unchanged |
| `OrderLaws.MergeCannotClear` | src/services/OrderService.js:224-231 | a truthy number, date or method field stays truthy after any update, so `isPaid` never returns to 0 from a non-zero value |
| `OrderLaws.MergeCanEmptyItems` | src/services/OrderService.js:221 | an update with an empty item list replaces the items with the empty list, since an empty array is truthy |
| `OrderLaws.RepaidOrderCanBeCancelled` | src/services/OrderService.js:229-275 | after an update sets `isPaid` to a truthy value other than 1, cancelling the order succeeds, whatever `isPaid` was before |
| `OrderLaws.ExamplePayLaterOrder` | src/services/OrderService.js:99-109 | two units against a stock of five, paid later: the order is created with the default status, and the product ends with three in stock and two sold |
| `OrderLaws.ExampleShortageKeepsEarlierReservation` | src/services/OrderService.js:64-78 | when the second item is short, no order is created, the message names that product, and the first item's reservation stays applied |
| `Text.Split` | src/services/OrderService.js:313 | the parts number one more than the separators in the string, and no part contains the separator |
| `Text.JoinSplit` | src/services/OrderService.js:313 | joining the split parts with the same separator gives back the string |
| `Text.SplitJoin` | src/services/OrderService.js:313 | splitting a join of one or more separator-free parts gives back the parts |
| `Text.SplitIsListExactlyWhenSeparated` | src/services/OrderService.js:313-315 | a string splits into more than one part exactly when it contains the separator |
| `OrderQuery.CeilDiv` | src/services/OrderService.js:338 | the result is the ceiling of count divided by limit, for either sign of the limit |
| `OrderQuery.TotalPages` | src/services/OrderService.js:338 | Math.ceil(count/limit): the fewest pages that hold the count for a positive limit, the ceiling for a negative one, and Infinity or NaN for a zero limit |
| `OrderQuery.IdFilter` | src/services/OrderService.js:312-329 | an empty parameter adds no filter; a parameter with a `\|` becomes one-of over its split parts; otherwise it becomes equality with the whole id |
| `OrderQuery.StatusFilter` | src/services/OrderService.js:331-334 | a non-empty status parameter is always a one-of filter over its split parts, even when it holds one value |
| `OrderQuery.AllOrdersPlan` | src/services/OrderService.js:290-404 | the call rejects iff a user, product, city or status parameter is a list (a repeated key), since a list has no `split`; otherwise limit defaults to 10, page to 1 and order to "created desc"; the filters come from the id and status rules; fetch-all applies iff page and limit are both -1, and then the page count is 1; otherwise the page count is Math.ceil(count/limit) |
| `OrderQuery.ValueFilter` | src/services/OrderService.js:429-443 | a list value becomes one-of, a non-empty single value becomes equality, and an empty one adds no filter |
| `OrderQuery.MyOrdersPlan` | src/services/OrderService.js:407-507 | the query always carries the owner, never a city; the status filter defaults to equality with 1; a given order becomes the sort order and a missing one gives "created desc"; limit and page default only when missing; always paged, with page count Math.ceil(count/limit) |
| `OrderQuery.IdFilterListRoundTrip` | src/services/OrderService.js:312-316 | a one-of id filter has at least two ids, none containing `\|`, and they join back to the parameter |
| `OrderQuery.MyOrdersHasNoFetchAll` | src/services/OrderService.js:445-447 | for the user's own list, page and limit of -1 still page, and the page count is minus the order count |
| `OrderQuery.PageCountIsLeast` | src/services/OrderService.js:338 | with a positive limit, no smaller number of pages holds every matching order |

## Left out

- Persistence is the `Store` maps. The following are not modelled: Mongoose
  lookups, `populate` and `select` projections, `countDocuments`, sorting, and
  ObjectId conversion. An ObjectId conversion that throws on a malformed id is
  also left out.
- The `Promise.all` fan-outs in `createOrder` and `deleteOrderProduct` run as a
  left-to-right fold. Concurrent interleavings are not modelled. Each
  reservation is one atomic conditional update in the store, so a
  different order between two items on the same product could change which
  one is refused.
- A store error during a reservation is an input, `faulty`: the set of line
  items whose update raises. A store error in any other call is not modelled.
  The one exception is a duplicate order id, given as the input `newId`.
- Document schema validation in `Order.create` is not part of this model.
  This covers required fields, casts, and the default `status`. The default
  status is taken as 1, the "default/processing" value.
- `preparePaginationAndSorting` and `buildQuery` are not part of this model.
  The paging plan keeps the page, the limit and the sort text as data. The
  case-insensitive name search is kept as the search text.
- Running a list query against the store is not modelled; the matching
  count is an input. So is the `.limit` applied when `getAllOrderOfMe` gets
  an empty limit.
- The `search`, `order`, `limit` and `page` parameters of both list
  operations are modelled as single values. A repeated key that makes one
  of them a list is not modelled.
- Numeric query parameters are missing, empty, or an integer. A
  non-numeric or fractional value, which becomes NaN or a fraction, is left
  out. The empty string counts as 0 where the source divides by it.
- Envelope status codes and typeError values come from a configuration file
  that is not part of this model, so they are abstract tags. The value of
  `PAYMENT_TYPES.PAYMENT_LATER` is likewise a placeholder constant.
- Sending the order-creation email is commented out in the source and is
  I/O, so it is not modelled. The request's `email` field is dropped.
- `OrderService.CancelOrder`, `OrderService.CancelOrderOfMe`,
  `OrderService.Merge`: `isPaid` is modelled as an integer. A boolean
  `isPaid`, which is never `=== 1` but is truthy when `true`, is not
  modelled.
- Prices are integers; floating-point arithmetic is not modelled.
- The controllers and Express route tables are HTTP wiring around the
  service, so they are not modelled. This covers the payment-type
  controller and the order and review routers.

=== FILE: order_laws.dfy ===
/** Laws that relate several order-service operations: the stock round trip of
    create then delete, cancellation agreement and idempotence, the merge
    laws of update, and worked examples of the creation workflow. */
module OrderLaws {
  import opened Values
  import opened Replies
  import opened Stock
  import opened Orders
  import opened OrderService

  /** The request names no product by the empty id. */
  predicate ProperIds(items: seq<LineItem>) {
    forall k :: 0 <= k < |items| ==> items[k].product != ""
  }

  /** With proper ids, no reported failure means every reservation went through. */
  lemma {:induction false} NoFailureMeansAllReserved(ps: Products, items: seq<LineItem>, faulty: set<nat>)
    requires ProperIds(items)
    ensures FailedIds(ReserveAll(ps, items, faulty).0) == [] <==> AllReserved(ReserveAll(ps, items, faulty).0)
  {
  }

  /** Creating an order and then deleting it leaves the store as it was: the
      product counters return to their original values and the order is gone. */
  lemma {:induction false} CreateThenDeleteRestoresStore(st: Store, req: NewOrder, newId: OrderId, faulty: set<nat>)
    requires ProperIds(req.orderItems)
    requires Delivered(CreateOrder(st, req, newId, faulty).outcome)
    ensures DeleteOrderProduct(CreateOrder(st, req, newId, faulty).store, newId).store == st
  {
    var created := CreateOrder(st, req, newId, faulty);
    var reserved := ReserveAll(st.products, req.orderItems, faulty).1;
    var o := created.outcome.reply.data.value;
    assert created.store == Store(reserved, st.orders[newId := o], st.paymentTypes);
    assert o.orderItems == req.orderItems;
    NoFailureMeansAllReserved(st.products, req.orderItems, faulty);
    RestoreAllUndoesReserveAll(st.products, req.orderItems, faulty);
    var after := DeleteOrderProduct(created.store, newId).store;
    assert after == Store(RestoreAll(reserved, o.orderItems), st.orders[newId := o] - {newId}, st.paymentTypes);
    assert st.orders[newId := o] - {newId} == st.orders;
  }

  /** On a successful creation every product has given up exactly the units
      the order asks of it. */
  lemma {:induction false} CreateOrderTakesDemand(st: Store, req: NewOrder, newId: OrderId, faulty: set<nat>, pid: ProductId)
    requires ProperIds(req.orderItems)
    requires Delivered(CreateOrder(st, req, newId, faulty).outcome)
    requires pid in st.products
    ensures CreateOrder(st, req, newId, faulty).store.products[pid].countInStock
            == st.products[pid].countInStock - Demand(req.orderItems, pid)
    ensures CreateOrder(st, req, newId, faulty).store.products[pid].sold
            == st.products[pid].sold + Demand(req.orderItems, pid)
  {
    NoFailureMeansAllReserved(st.products, req.orderItems, faulty);
    ReserveAllTakesDemand(st.products, req.orderItems, faulty, pid);
  }

  /** When every product exists with enough units for the whole order, no
      store error occurs, the payment type resolves and the id is fresh,
      `createOrder` creates the order. */
  lemma {:induction false} SufficientStockCreatesOrder(st: Store, req: NewOrder, newId: OrderId, faulty: set<nat>)
    requires forall k :: 0 <= k < |req.orderItems| ==>
      req.orderItems[k].amount >= 0 && req.orderItems[k].product in st.products && k !in faulty
    requires forall id :: id in st.products ==> Demand(req.orderItems, id) <= st.products[id].countInStock
    requires PaymentResolves(st, req)
    requires newId !in st.orders
    ensures Delivered(CreateOrder(st, req, newId, faulty).outcome)
  {
    SufficientStockReservesAll(st.products, req.orderItems, faulty);
  }

  /** With non-negative amounts, an item whose product is missing or asks for
      more than the product had is named in the out-of-stock reply. */
  lemma {:induction false} ShortItemIsReported(st: Store, req: NewOrder, faulty: set<nat>, k: nat)
    requires forall j :: 0 <= j < |req.orderItems| ==> req.orderItems[j].amount >= 0
    requires k < |req.orderItems|
    requires req.orderItems[k].product != ""
    requires req.orderItems[k].product !in st.products
             || req.orderItems[k].amount > st.products[req.orderItems[k].product].countInStock
    ensures req.orderItems[k].product in Shortages(st, req, faulty)
  {
    ShortItemIsRefused(st.products, req.orderItems, faulty, k);
  }

  /** For the owner, `cancelOrderOfMe` behaves exactly like `cancelOrder`. */
  lemma CancelOrderOfMeAsOwner(st: Store, user: UserId, id: OrderId)
    requires id in st.orders && st.orders[id].user == user
    ensures CancelOrderOfMe(st, user, id) == CancelOrder(st, id)
  {
  }

  /** The ownership check comes before the paid check: a stranger is refused as
      unauthorized even when the order is paid. */
  lemma CancelOrderOfMeChecksOwnerFirst(st: Store, user: UserId, id: OrderId)
    requires id in st.orders && st.orders[id].user != user && st.orders[id].isPaid == Paid
    ensures CancelOrderOfMe(st, user, id).outcome.reply.status == Unauthorized
    ensures CancelOrder(st, id).outcome.reply.status == Invalid
  {
  }

  /** Cancelling twice is the same as cancelling once. */
  lemma CancelOrderIdempotent(st: Store, id: OrderId)
    requires CancelOrder(st, id).outcome.reply.succeeded
    ensures var once := CancelOrder(st, id).store;
      CancelOrder(once, id).outcome.reply.succeeded && CancelOrder(once, id).store == once
  {
    var once := CancelOrder(st, id).store;
    assert once.orders[id] == st.orders[id].(status := Cancelled);
    assert once.orders[id := once.orders[id].(status := Cancelled)] == once.orders;
  }

  /** For the owner, `getDetailsOrderOfMe` gives what `getOrderDetails` gives. */
  lemma GetDetailsOrderOfMeAsOwner(st: Store, user: UserId, id: OrderId)
    requires id in st.orders && st.orders[id].user == user
    ensures GetDetailsOrderOfMe(st, user, id) == GetOrderDetails(st, id)
  {
  }

  /** Applying the same update twice is the same as applying it once. */
  lemma MergeIdempotent(o: Order, p: Patch)
    ensures Merge(Merge(o, p), p) == Merge(o, p)
  {
  }

  /** An update whose fields are all missing or falsy changes nothing. */
  lemma MergeFalsyPatchKeepsOrder(o: Order, p: Patch)
    requires p.orderItems.None? && p.shippingAddress.None?
    requires !TruthyText(p.paymentMethod) && !TruthyText(p.deliveryMethod)
    requires !TruthyNumber(p.itemsPrice) && !TruthyNumber(p.shippingPrice) && !TruthyNumber(p.totalPrice)
    requires !TruthyNumber(p.isPaid) && !TruthyText(p.paidAt) && !TruthyText(p.deliveryAt)
    ensures Merge(o, p) == o
  {
  }

  /** A truthy number, string or date field cannot be made falsy by an
      update: `isPaid` can never go from non-zero back to 0. */
  lemma MergeCannotClear(o: Order, p: Patch)
    ensures o.isPaid != 0 ==> Merge(o, p).isPaid != 0
    ensures o.itemsPrice != 0 ==> Merge(o, p).itemsPrice != 0
    ensures o.shippingPrice != 0 ==> Merge(o, p).shippingPrice != 0
    ensures o.totalPrice != 0 ==> Merge(o, p).totalPrice != 0
    ensures TruthyText(o.paymentMethod) ==> TruthyText(Merge(o, p).paymentMethod)
    ensures TruthyText(o.deliveryMethod) ==> TruthyText(Merge(o, p).deliveryMethod)
    ensures TruthyText(o.paidAt) ==> TruthyText(Merge(o, p).paidAt)
    ensures TruthyText(o.deliveryAt) ==> TruthyText(Merge(o, p).deliveryAt)
  {
  }

  /** A list or object field is replaced by any given value, even an empty
      one: an update with an empty item list empties the order. */
  lemma MergeCanEmptyItems(o: Order, p: Patch)
    requires p.orderItems == Some([])
    ensures Merge(o, p).orderItems == []
  {
  }

  /** The cancellation gate tests `isPaid` against 1 only, so updating a
      paid order to another truthy `isPaid` lets it be cancelled. */
  lemma RepaidOrderCanBeCancelled(st: Store, id: OrderId, p: Patch)
    requires id in st.orders
    requires p.isPaid.Some? && p.isPaid.value != 0 && p.isPaid.value != Paid
    ensures CancelOrder(UpdateOrder(st, id, p).store, id).outcome.reply.succeeded
  {
  }

  // ---------------------------------------------------------------- examples

  function ExampleRequest(items: seq<LineItem>, paymentMethod: Option<PaymentTypeId>): NewOrder {
    NewOrder(items, paymentMethod, 20, 5, 25, "An", "1 Main St", "c1", "0900", "u1", 0, None, None)
  }

  /** One item of two units of a product with five in stock, paid later: the
      order is created with the default status and the product goes to three
      in stock and two more sold. */
  lemma ExamplePayLaterOrder()
    ensures var st := Store(map["p1" := Product(5, 0)], map[], map["later" := PaymentType("Cash", PaymentLater)]);
      var r := CreateOrder(st, ExampleRequest([LineItem("p1", 2, "Shirt", 10)], Some("later")), "o1", {});
      && Delivered(r.outcome)
      && r.outcome.reply.data.value.status == DefaultStatus
      && r.store.products["p1"] == Product(3, 2)
  {
    var st := Store(map["p1" := Product(5, 0)], map[], map["later" := PaymentType("Cash", PaymentLater)]);
    var items := [LineItem("p1", 2, "Shirt", 10)];
    var res := ReserveAll(st.products, items, {});
    assert items[..0] == [];
    assert res.0 == [Reserved(Product(3, 2))];
    assert FailedIds(res.0) == [];
  }

  /** Two items, the second short of stock: no order, the message names the
      short product, and the first item's reservation stays applied. */
  lemma ExampleShortageKeepsEarlierReservation()
    ensures var st := Store(map["p1" := Product(5, 0), "p2" := Product(1, 0)], map[], map[]);
      var r := CreateOrder(st, ExampleRequest([LineItem("p1", 2, "Shirt", 10), LineItem("p2", 3, "Hat", 5)], None), "o1", {});
      && r.outcome == Resolved(Failure(InternalError, InvalidType, "The product with id: p2 out of the stock"))
      && r.store.orders == map[]
      && r.store.products["p1"] == Product(3, 2)
      && r.store.products["p2"] == Product(1, 0)
  {
    var st := Store(map["p1" := Product(5, 0), "p2" := Product(1, 0)], map[], map[]);
    var items := [LineItem("p1", 2, "Shirt", 10), LineItem("p2", 3, "Hat", 5)];
    var req := ExampleRequest(items, None);
    var taken := st.products["p1" := Product(3, 2)];
    assert items[..1][..0] == [];
    assert items[..1] == [items[0]];
    assert ReserveAll(st.products, [], {}) == ([], st.products);
    assert Reserve(st.products, items[0], false) == (Reserved(Product(3, 2)), taken);
    assert ReserveAll(st.products, items[..1], {}) == ([Reserved(Product(3, 2))], taken);
    assert Reserve(taken, items[1], false) == (Refused(Invalid, "p2"), taken);
    var res := ReserveAll(st.products, items, {});
    assert res == ([Reserved(Product(3, 2))] + [Refused(Invalid, "p2")], taken);
    FailedIdsConcat([Reserved(Product(3, 2))], [Refused(Invalid, "p2")]);
    assert FailedIds([Reserved(Product(3, 2))]) == [];
    assert FailedIds([Refused(Invalid, "p2")]) == ["p2"];
    assert Shortages(st, req, {}) == ["p2"];
    assert OutOfStockMessage(["p2"]) == "The product with id: p2 out of the stock";
  }

}

=== FILE: order_query.dfy ===
/** How the two list operations turn loosely typed query-string parameters
    into a filter, a sort order, a paging window and a page count. Running the
    query against the store, the skip and sort computation and the
    case-insensitive name search are the store's business and are kept as
    data here. */
module OrderQuery {
  import opened Values
  import opened Text

  /** A numeric query-string parameter: missing, the empty string, or a numeric
      string whose value is `n`. */
  datatype NumberParam = Absent | Blank | Given(n: int)

  /** A query-string value: one string, or a list when the key is repeated. */
  datatype ParamValue = Single(text: string) | Many(texts: seq<string>)

  /** A value a filter compares with: a string from the request or a number. */
  datatype Term = Str(text: string) | Num(n: int)

  /** Equality with one value, or membership in a list (`$in`). */
  datatype Filter = Equals(term: Term) | OneOf(terms: seq<Term>)

  /** The order filter; `None` leaves a dimension unconstrained. `nameSearch`
      is matched case-insensitively against item names by the store. */
  datatype Query = Query(
    owner: Option<Filter>,
    product: Option<Filter>,
    city: Option<Filter>,
    status: Option<Filter>,
    nameSearch: Option<string>)

  /** Either every matching order, or the page `page` of size `limit`. */
  datatype Paging = FetchAll | Window(page: int, limit: int)

  /** `Math.ceil(totalCount / limit)`: a whole number, or `Infinity` / `NaN`
      when the limit is zero. */
  datatype PageCount = Pages(n: int) | Infinite | NotANumber

  datatype ListPlan = ListPlan(
    query: Query,
    sortOrder: string,
    paging: Paging,
    totalPage: PageCount,
    totalCount: nat)

  /** The parameters of `getAllOrder`; the id and status lists arrive as a
      list when the key is repeated. */
  datatype AllOrderParams = AllOrderParams(
    limit: NumberParam,
    page: NumberParam,
    search: Option<string>,
    order: Option<string>,
    userId: Option<ParamValue>,
    productId: Option<ParamValue>,
    status: Option<ParamValue>,
    cityId: Option<ParamValue>)

  /** The parameters of `getAllOrderOfMe`. */
  datatype MyOrderParams = MyOrderParams(
    limit: NumberParam,
    page: NumberParam,
    search: Option<string>,
    order: Option<string>,
    product: Option<ParamValue>,
    status: Option<ParamValue>)

  const DefaultLimit: int := 10
  const DefaultPage: int := 1
  const DefaultSortOrder: string := "created desc"
  /** The status `getAllOrderOfMe` filters on when none is asked for. */
  const DefaultMyStatus: int := 1
  const ListSeparator: char := '|'

  /** `p ? +p : default`: a missing or empty parameter takes the default. */
  function NumberOr(p: NumberParam, default: int): int {
    if p.Given? then p.n else default
  }

  /** `p ?? default`, as later coerced to a number: only a missing parameter
      takes the default, and the empty string counts as 0. */
  function NumberOrNullish(p: NumberParam, default: int): int {
    match p
    case Absent => default
    case Blank => 0
    case Given(n) => n
  }

  /** Ceiling of `c / l` for a non-zero divisor of either sign. */
  function CeilDiv(c: nat, l: int): (r: int)
    requires l != 0
    ensures l > 0 ==> (r - 1) * l < c <= r * l
    ensures l < 0 ==> r * l <= c < (r - 1) * l
  {
    if l > 0 then
      var q := (c + l - 1) / l;
      assert q * l <= c + l - 1 < q * l + l;
      q
    else
      var m := -l;
      var q := c / m;
      assert q * m <= c < q * m + m;
      assert -q * l == q * m;
      -q
  }

  /** `Math.ceil(totalCount / limit)`. */
  function TotalPages(count: nat, limit: int): (r: PageCount)
    ensures limit == 0 ==> (r == Infinite <==> count > 0) && (r == NotANumber <==> count == 0)
    ensures limit > 0 ==> r.Pages? && (r.n - 1) * limit < count <= r.n * limit
    ensures limit < 0 ==> r.Pages? && r.n * limit <= count < (r.n - 1) * limit
  {
    if limit == 0 then (if count == 0 then NotANumber else Infinite)
    else Pages(CeilDiv(count, limit))
  }

  function Strs(parts: seq<string>): seq<Term> {
    seq(|parts|, i requires 0 <= i < |parts| => Str(parts[i]))
  }

  /** The user, product and city filters of `getAllOrder`: an empty parameter
      adds no filter, a `|`-separated list of several ids becomes "one of",
      and a single id becomes equality. */
  function IdFilter(raw: Option<string>): (f: Option<Filter>)
    ensures f.Some? <==> TruthyText(raw)
    ensures f.Some? && f.value.OneOf? <==> TruthyText(raw) && ListSeparator in raw.value
    ensures f.Some? && f.value.Equals? ==> f.value.term == Str(raw.value)
    ensures f.Some? && f.value.OneOf? ==> f.value.terms == Strs(Split(raw.value, ListSeparator))
  {
    if !TruthyText(raw) then None
    else
      var parts := Split(raw.value, ListSeparator);
      SplitIsListExactlyWhenSeparated(raw.value, ListSeparator);
      if |parts| > 1 then Some(OneOf(Strs(parts))) else Some(Equals(Str(raw.value)))
  }

  /** The status filter of `getAllOrder`: always "one of", even for one value. */
  function StatusFilter(raw: Option<string>): (f: Option<Filter>)
    ensures f.Some? <==> TruthyText(raw)
    ensures f.Some? ==> f.value.OneOf? && f.value.terms == Strs(Split(raw.value, ListSeparator))
  {
    if TruthyText(raw) then Some(OneOf(Strs(Split(raw.value, ListSeparator)))) else None
  }

  /** The name search is applied only when the search text is non-empty. */
  function NameSearch(search: Option<string>): Option<string> {
    if TruthyText(search) then search else None
  }

  /** A parameter given as a list, which has no `split`. */
  predicate IsList(v: Option<ParamValue>) {
    v.Some? && v.value.Many?
  }

  /** The text of a parameter given once; `None` when it is missing or a list. */
  function SingleText(v: Option<ParamValue>): Option<string> {
    if v.Some? && v.value.Single? then Some(v.value.text) else None
  }

  /** The query, paging and page count of `getAllOrder`; `totalCount` is the
      number of orders the store reports as matching the query. `None` when a
      user, product, city or status parameter is a list: it is truthy and has
      no `split`, so the call rejects before counting. */
  function AllOrdersPlan(params: AllOrderParams, totalCount: nat): (r: Option<ListPlan>)
    ensures r.None? <==> IsList(params.userId) || IsList(params.productId) || IsList(params.cityId) || IsList(params.status)
    ensures r.Some? ==> r.value.totalCount == totalCount
    ensures r.Some? ==> r.value.query == Query(IdFilter(SingleText(params.userId)), IdFilter(SingleText(params.productId)),
                                               IdFilter(SingleText(params.cityId)), StatusFilter(SingleText(params.status)),
                                               NameSearch(params.search))
    ensures r.Some? && params.order.None? ==> r.value.sortOrder == DefaultSortOrder
    ensures r.Some? && params.order.Some? ==> r.value.sortOrder == params.order.value
    ensures r.Some? ==> (r.value.paging == FetchAll <==> params.page == Given(-1) && params.limit == Given(-1))
    ensures r.Some? && r.value.paging == FetchAll ==> r.value.totalPage == Pages(1)
    ensures r.Some? && r.value.paging.Window? ==>
      && r.value.paging.limit == (if params.limit.Given? then params.limit.n else DefaultLimit)
      && r.value.paging.page == (if params.page.Given? then params.page.n else DefaultPage)
      && r.value.totalPage == TotalPages(totalCount, r.value.paging.limit)
  {
    if IsList(params.userId) || IsList(params.productId) || IsList(params.cityId) || IsList(params.status) then None
    else
      var limit := NumberOr(params.limit, DefaultLimit);
      var page := NumberOr(params.page, DefaultPage);
      var query := Query(IdFilter(SingleText(params.userId)), IdFilter(SingleText(params.productId)),
                         IdFilter(SingleText(params.cityId)), StatusFilter(SingleText(params.status)),
                         NameSearch(params.search));
      var sortOrder := params.order.OrElse(DefaultSortOrder);
      if page == -1 && limit == -1 then Some(ListPlan(query, sortOrder, FetchAll, Pages(1), totalCount))
      else Some(ListPlan(query, sortOrder, Window(page, limit), TotalPages(totalCount, limit), totalCount))
  }

  /** The product and status filters of `getAllOrderOfMe`: a list becomes "one
      of", a single non-empty value becomes equality, an empty one no filter. */
  function ValueFilter(v: ParamValue): (f: Option<Filter>)
    ensures v.Many? ==> f == Some(OneOf(Strs(v.texts)))
    ensures v.Single? ==> (f.Some? <==> v.text != "")
    ensures v.Single? && f.Some? ==> f.value == Equals(Str(v.text))
  {
    match v
    case Many(texts) => Some(OneOf(Strs(texts)))
    case Single(text) => if text != "" then Some(Equals(Str(text))) else None
  }

  /** The query, paging and page count of `getAllOrderOfMe` for user `user`. */
  function MyOrdersPlan(user: string, params: MyOrderParams, totalCount: nat): (r: ListPlan)
    ensures r.totalCount == totalCount
    ensures r.query.owner == Some(Equals(Str(user)))
    ensures r.query.city == None
    ensures r.query.nameSearch == NameSearch(params.search)
    ensures params.product.None? ==> r.query.product == None
    ensures params.product.Some? ==> r.query.product == ValueFilter(params.product.value)
    ensures params.status.None? ==> r.query.status == Some(Equals(Num(DefaultMyStatus)))
    ensures params.status.Some? ==> r.query.status == ValueFilter(params.status.value)
    ensures params.order.None? ==> r.sortOrder == DefaultSortOrder
    ensures params.order.Some? ==> r.sortOrder == params.order.value
    ensures r.paging == Window(NumberOrNullish(params.page, DefaultPage), NumberOrNullish(params.limit, DefaultLimit))
    ensures r.totalPage == TotalPages(totalCount, r.paging.limit)
  {
    var limit := NumberOrNullish(params.limit, DefaultLimit);
    var page := NumberOrNullish(params.page, DefaultPage);
    var product := if params.product.Some? then ValueFilter(params.product.value) else None;
    var status := if params.status.Some? then ValueFilter(params.status.value) else Some(Equals(Num(DefaultMyStatus)));
    var query := Query(Some(Equals(Str(user))), product, None, status, NameSearch(params.search));
    ListPlan(query, params.order.OrElse(DefaultSortOrder), Window(page, limit), TotalPages(totalCount, limit), totalCount)
  }

  /** The texts of a list of string terms. */
  function Texts(ts: seq<Term>): seq<string>
    requires forall i :: 0 <= i < |ts| ==> ts[i].Str?
  {
    seq(|ts|, i requires 0 <= i < |ts| && ts[i].Str? => ts[i].text)
  }

  /** A "one of" id filter lists exactly the ids of the parameter: joining them
      back with the separator gives the parameter, and none holds a separator. */
  lemma IdFilterListRoundTrip(raw: Option<string>)
    requires TruthyText(raw) && ListSeparator in raw.value
    ensures var f := IdFilter(raw).value;
      && f.OneOf?
      && |f.terms| >= 2
      && Join(Texts(f.terms), ListSeparator) == raw.value
      && forall i :: 0 <= i < |f.terms| ==> ListSeparator !in f.terms[i].text
  {
    var parts := Split(raw.value, ListSeparator);
    SplitIsListExactlyWhenSeparated(raw.value, ListSeparator);
    assert Texts(IdFilter(raw).value.terms) == parts;
    JoinSplit(raw.value, ListSeparator);
  }

  /** `getAllOrderOfMe` has no fetch-all escape: with page and limit both -1
      it still pages, and its page count is minus the number of orders. */
  lemma MyOrdersHasNoFetchAll(user: string, params: MyOrderParams, totalCount: nat)
    requires params.page == Given(-1) && params.limit == Given(-1)
    ensures MyOrdersPlan(user, params, totalCount).paging == Window(-1, -1)
    ensures MyOrdersPlan(user, params, totalCount).totalPage == Pages(-(totalCount as int))
  {
    var r := MyOrdersPlan(user, params, totalCount).totalPage;
    assert r.n * -1 <= totalCount < (r.n - 1) * -1;
  }

  /** With a positive limit, the page count is the fewest pages of that size
      that hold every matching order. */
  lemma PageCountIsLeast(count: nat, limit: int, pages: int)
    requires limit > 0 && pages * limit >= count
    ensures TotalPages(count, limit).Pages? && TotalPages(count, limit).n <= pages
  {
  }
}

=== FILE: order_service.dfy ===
/** The order workflow: creation with stock reservation, lookup, deletion with
    stock restoration, field merge, cancellation, and the owner-scoped variants.
    Each operation is a transition of the store that yields an outcome. */
module OrderService {
  import opened Values
  import opened Text
  import opened Replies
  import opened Stock
  import opened Orders

  /** The body of a create request. */
  datatype NewOrder = NewOrder(
    orderItems: seq<LineItem>,
    paymentMethod: Option<PaymentTypeId>,
    itemsPrice: int,
    shippingPrice: int,
    totalPrice: int,
    fullName: string,
    address: string,
    city: string,
    phone: string,
    user: UserId,
    isPaid: int,
    paidAt: Option<string>,
    deliveryMethod: Option<string>)

  // ---------------------------------------------------------------- creation

  /** `results.filter(item => item.id).map(item => item.id)`: the product ids of
      the refused reservations, in item order, skipping an empty (falsy) id. */
  function FailedIds(results: seq<Reservation>): (ids: seq<ProductId>)
    ensures |ids| <= |results|
    ensures forall i :: 0 <= i < |ids| ==> ids[i] != ""
    ensures forall id :: id in ids <==>
      exists k :: 0 <= k < |results| && results[k].Refused? && results[k].id == id && id != ""
    ensures ids == [] <==> forall k :: 0 <= k < |results| && results[k].Refused? ==> results[k].id == ""
    decreases |results|
  {
    if |results| == 0 then []
    else
      var n := |results| - 1;
      assert results == results[..n] + [results[n]];
      FailedIds(results[..n]) + (if results[n].Refused? && results[n].id != "" then [results[n].id] else [])
  }

  /** The failure list of two runs of results is the failure list of the first
      followed by that of the second: ids are reported in item order. */
  lemma {:induction false} FailedIdsConcat(a: seq<Reservation>, b: seq<Reservation>)
    ensures FailedIds(a + b) == FailedIds(a) + FailedIds(b)
    decreases |b|
  {
    if |b| == 0 {
      assert a + b == a;
    } else {
      var n := |b| - 1;
      var last := if b[n].Refused? && b[n].id != "" then [b[n].id] else [];
      FailedIdsConcat(a, b[..n]);
      assert (a + b)[..|a + b| - 1] == a + b[..n];
      assert (a + b)[|a + b| - 1] == b[n];
      assert FailedIds(a + b) == FailedIds(a + b[..n]) + last;
      assert FailedIds(b) == FailedIds(b[..n]) + last;
      assert (FailedIds(a) + FailedIds(b[..n])) + last == FailedIds(a) + (FailedIds(b[..n]) + last);
    }
  }

  function OutOfStockMessage(ids: seq<ProductId>): string {
    "The product with id: " + Join(ids, ',') + " out of the stock"
  }

  /** If a payment method is given, it names a recorded payment type. */
  predicate PaymentResolves(st: Store, req: NewOrder) {
    TruthyText(req.paymentMethod) ==> req.paymentMethod.value in st.paymentTypes
  }

  /** A payment method is given and its type is something other than "pay later". */
  predicate PaysUpFront(st: Store, req: NewOrder) {
    && TruthyText(req.paymentMethod)
    && req.paymentMethod.value in st.paymentTypes
    && st.paymentTypes[req.paymentMethod.value].kind != PaymentLater
  }

  /** The initial status: awaiting payment exactly when the order pays up
      front, else the document default. */
  function InitialStatus(st: Store, req: NewOrder): (status: int)
    requires PaymentResolves(st, req)
    ensures status == AwaitingPayment <==> PaysUpFront(st, req)
    ensures status != AwaitingPayment ==> status == DefaultStatus
  {
    if TruthyText(req.paymentMethod) && st.paymentTypes[req.paymentMethod.value].kind != PaymentLater
    then AwaitingPayment
    else DefaultStatus
  }

  /** The document `createOrder` persists. */
  function NewRecord(req: NewOrder, status: int): Order {
    Order(
      user := req.user,
      orderItems := req.orderItems,
      shippingAddress := Address(req.fullName, req.address, req.city, req.phone),
      paymentMethod := if TruthyText(req.paymentMethod) then req.paymentMethod else None,
      deliveryMethod := if TruthyText(req.deliveryMethod) then req.deliveryMethod else None,
      itemsPrice := req.itemsPrice,
      shippingPrice := req.shippingPrice,
      totalPrice := req.totalPrice,
      isPaid := req.isPaid,
      paidAt := req.paidAt,
      isDelivered := false,
      deliveryAt := None,
      status := status)
  }

  /** The new order carries the request's items, owner, address, prices and
      payment flags, is not delivered, and keeps a method only when one is given. */
  predicate CopiesRequest(o: Order, req: NewOrder) {
    && o.orderItems == req.orderItems
    && o.user == req.user
    && o.shippingAddress == Address(req.fullName, req.address, req.city, req.phone)
    && o.itemsPrice == req.itemsPrice
    && o.shippingPrice == req.shippingPrice
    && o.totalPrice == req.totalPrice
    && o.isPaid == req.isPaid
    && o.paidAt == req.paidAt
    && !o.isDelivered
    && o.deliveryAt == None
    && o.paymentMethod == (if TruthyText(req.paymentMethod) then req.paymentMethod else None)
    && o.deliveryMethod == (if TruthyText(req.deliveryMethod) then req.deliveryMethod else None)
  }

  /** The ids `createOrder` reports as out of stock. */
  function Shortages(st: Store, req: NewOrder, faulty: set<nat>): seq<ProductId> {
    FailedIds(ReserveAll(st.products, req.orderItems, faulty).0)
  }

  /** `createOrder`. `newId` is the id the store assigns to the new document
      and `faulty` the line items whose reservation meets a store error.
      Reservations are applied first and never rolled back; a reported
      shortage resolves an error naming exactly the failing ids; a payment
      method without a record rejects; otherwise exactly one order is stored. */
  function CreateOrder(st: Store, req: NewOrder, newId: OrderId, faulty: set<nat>): (r: Step<Order>)
    ensures r.store.products == ReserveAll(st.products, req.orderItems, faulty).1
    ensures r.store.paymentTypes == st.paymentTypes
    ensures Shortages(st, req, faulty) != [] ==>
      r.outcome == Resolved(Failure(InternalError, InvalidType, OutOfStockMessage(Shortages(st, req, faulty))))
    ensures Shortages(st, req, faulty) == [] && !PaymentResolves(st, req) ==>
      r.outcome == Rejected(PaymentTypeMissing(req.paymentMethod.value))
    ensures Shortages(st, req, faulty) == [] && PaymentResolves(st, req) && newId in st.orders ==>
      r.outcome == Rejected(DuplicateOrderId(newId))
    ensures Delivered(r.outcome) <==> Shortages(st, req, faulty) == [] && PaymentResolves(st, req) && newId !in st.orders
    ensures !Delivered(r.outcome) ==> r.store.orders == st.orders
    ensures Delivered(r.outcome) ==> r.store.orders == st.orders[newId := r.outcome.reply.data.value]
    ensures Delivered(r.outcome) ==> r.outcome == Resolved(Success(ActionSuccess, "Success", r.outcome.reply.data.value))
    ensures Delivered(r.outcome) ==> CopiesRequest(r.outcome.reply.data.value, req)
    ensures Delivered(r.outcome) ==> (r.outcome.reply.data.value.status == AwaitingPayment <==> PaysUpFront(st, req))
    ensures Delivered(r.outcome) && !PaysUpFront(st, req) ==> r.outcome.reply.data.value.status == DefaultStatus
  {
    var (results, reserved) := ReserveAll(st.products, req.orderItems, faulty);
    var afterStock := st.(products := reserved);
    var failed := FailedIds(results);
    if failed != [] then
      Step(Resolved(Failure(InternalError, InvalidType, OutOfStockMessage(failed))), afterStock)
    else if !PaymentResolves(st, req) then
      Step(Rejected(PaymentTypeMissing(req.paymentMethod.value)), afterStock)
    else if newId in st.orders then
      Step(Rejected(DuplicateOrderId(newId)), afterStock)
    else
      var created := NewRecord(req, InitialStatus(st, req));
      Step(Resolved(Success(ActionSuccess, "Success", created)), afterStock.(orders := st.orders[newId := created]))
  }

  // ------------------------------------------------------------------ lookup

  /** `getOrderDetails`: the first envelope resolved wins, so a missing order
      gives the not-found error and the later success envelope has no effect. */
  function GetOrderDetails(st: Store, id: OrderId): (e: Envelope<Order>)
    ensures e.succeeded <==> id in st.orders
    ensures id in st.orders ==> e == Success(GetSuccess, "Success", st.orders[id])
    ensures id !in st.orders ==> e == Failure(Invalid, InvalidType, "The product is not existed")
  {
    if id !in st.orders then Failure(Invalid, InvalidType, "The product is not existed")
    else Success(GetSuccess, "Success", st.orders[id])
  }

  /** `getDetailsOrderOfMe`: lookup, then the ownership gate. */
  function GetDetailsOrderOfMe(st: Store, user: UserId, id: OrderId): (e: Envelope<Order>)
    ensures e.succeeded <==> id in st.orders && st.orders[id].user == user
    ensures e.data.Some? ==> e.data.value.user == user
    ensures id in st.orders && st.orders[id].user != user ==>
      e == Failure(Unauthorized, UnauthorizedType, "You no has permission")
    ensures id !in st.orders ==> e == Failure(Invalid, InvalidType, "The product is not existed")
    ensures id in st.orders && st.orders[id].user == user ==> e == Success(GetSuccess, "Success", st.orders[id])
  {
    if id !in st.orders then Failure(Invalid, InvalidType, "The product is not existed")
    else if st.orders[id].user != user then Failure(Unauthorized, UnauthorizedType, "You no has permission")
    else Success(GetSuccess, "Success", st.orders[id])
  }

  // ---------------------------------------------------------------- deletion

  /** `deleteOrderProduct`: removes the order and gives each item's amount
      back to its product, skipping products that no longer exist. */
  function DeleteOrderProduct(st: Store, id: OrderId): (r: Step<Order>)
    ensures r.store.paymentTypes == st.paymentTypes
    ensures id !in st.orders ==>
      r == Step(Resolved(Failure(Invalid, InvalidType, "The order product is not existed")), st)
    ensures id in st.orders ==>
      && r.outcome == Resolved(Success(ActionSuccess, "Order deleted successfully", st.orders[id]))
      && r.store.orders == st.orders - {id}
      && r.store.products.Keys == st.products.Keys
      && (forall pid :: pid in st.products ==>
            && r.store.products[pid].countInStock == st.products[pid].countInStock + Demand(st.orders[id].orderItems, pid)
            && r.store.products[pid].sold == st.products[pid].sold - Demand(st.orders[id].orderItems, pid))
  {
    if id !in st.orders then
      Step(Resolved(Failure(Invalid, InvalidType, "The order product is not existed")), st)
    else
      var deleted := st.orders[id];
      Step(Resolved(Success(ActionSuccess, "Order deleted successfully", deleted)),
           st.(orders := st.orders - {id}, products := RestoreAll(st.products, deleted.orderItems)))
  }

  // ------------------------------------------------------------------ update

  /** The body of an update request; a missing field is `None`. */
  datatype Patch = Patch(
    orderItems: Option<seq<LineItem>>,
    shippingAddress: Option<Address>,
    paymentMethod: Option<PaymentTypeId>,
    deliveryMethod: Option<string>,
    itemsPrice: Option<int>,
    shippingPrice: Option<int>,
    totalPrice: Option<int>,
    isPaid: Option<int>,
    paidAt: Option<string>,
    deliveryAt: Option<string>)

  /** `patch || current` for a list or object field: any given value is truthy. */
  function OrValue<T>(patch: Option<T>, current: T): T {
    if patch.Some? then patch.value else current
  }

  /** `patch || current` for a number field. */
  function OrNumber(patch: Option<int>, current: int): int {
    if TruthyNumber(patch) then patch.value else current
  }

  /** `patch || current` for a string field. */
  function OrText(patch: Option<string>, current: Option<string>): Option<string> {
    if TruthyText(patch) then patch else current
  }

  /** The field-by-field merge of `updateOrder`. */
  function Merge(o: Order, p: Patch): (m: Order)
    ensures m.user == o.user && m.status == o.status && m.isDelivered == o.isDelivered
    ensures p.orderItems.Some? ==> m.orderItems == p.orderItems.value
    ensures p.orderItems.None? ==> m.orderItems == o.orderItems
    ensures p.shippingAddress.Some? ==> m.shippingAddress == p.shippingAddress.value
    ensures p.shippingAddress.None? ==> m.shippingAddress == o.shippingAddress
    ensures m.paymentMethod == (if TruthyText(p.paymentMethod) then p.paymentMethod else o.paymentMethod)
    ensures m.deliveryMethod == (if TruthyText(p.deliveryMethod) then p.deliveryMethod else o.deliveryMethod)
    ensures m.itemsPrice == (if TruthyNumber(p.itemsPrice) then p.itemsPrice.value else o.itemsPrice)
    ensures m.shippingPrice == (if TruthyNumber(p.shippingPrice) then p.shippingPrice.value else o.shippingPrice)
    ensures m.totalPrice == (if TruthyNumber(p.totalPrice) then p.totalPrice.value else o.totalPrice)
    ensures m.isPaid == (if TruthyNumber(p.isPaid) then p.isPaid.value else o.isPaid)
    ensures m.paidAt == (if TruthyText(p.paidAt) then p.paidAt else o.paidAt)
    ensures m.deliveryAt == (if TruthyText(p.deliveryAt) then p.deliveryAt else o.deliveryAt)
  {
    o.(
      orderItems := OrValue(p.orderItems, o.orderItems),
      shippingAddress := OrValue(p.shippingAddress, o.shippingAddress),
      paymentMethod := OrText(p.paymentMethod, o.paymentMethod),
      deliveryMethod := OrText(p.deliveryMethod, o.deliveryMethod),
      itemsPrice := OrNumber(p.itemsPrice, o.itemsPrice),
      shippingPrice := OrNumber(p.shippingPrice, o.shippingPrice),
      totalPrice := OrNumber(p.totalPrice, o.totalPrice),
      isPaid := OrNumber(p.isPaid, o.isPaid),
      paidAt := OrText(p.paidAt, o.paidAt),
      deliveryAt := OrText(p.deliveryAt, o.deliveryAt))
  }

  /** `updateOrder`: a missing order rejects; otherwise the merged order
      replaces the stored one and nothing else changes. */
  function UpdateOrder(st: Store, id: OrderId, p: Patch): (r: Step<Order>)
    ensures id !in st.orders ==> r == Step(Rejected(OrderNotFound(id)), st)
    ensures id in st.orders ==>
      && r.outcome == Resolved(Success(ActionSuccess, "Order updated successfully", Merge(st.orders[id], p)))
      && r.store == st.(orders := st.orders[id := Merge(st.orders[id], p)])
  {
    if id !in st.orders then Step(Rejected(OrderNotFound(id)), st)
    else
      var saved := Merge(st.orders[id], p);
      Step(Resolved(Success(ActionSuccess, "Order updated successfully", saved)), st.(orders := st.orders[id := saved]))
  }

  // ------------------------------------------------------------ cancellation

  /** The shared tail of both cancellations: the paid check, then status 3. */
  function CancelChecked(st: Store, id: OrderId): Step<Order>
    requires id in st.orders
  {
    var o := st.orders[id];
    if o.isPaid == Paid then
      Step(Resolved(Failure(Invalid, InvalidType, "Cannot cancel order that has been paid")), st)
    else
      var cancelled := o.(status := Cancelled);
      Step(Resolved(Success(ActionSuccess, "Order cancelled successfully", cancelled)),
           st.(orders := st.orders[id := cancelled]))
  }

  /** `cancelOrder`. */
  function CancelOrder(st: Store, id: OrderId): (r: Step<Order>)
    ensures r.outcome.Resolved?
    ensures r.outcome.reply.succeeded <==> id in st.orders && st.orders[id].isPaid != Paid
    ensures !r.outcome.reply.succeeded ==>
      r.store == st && r.outcome.reply.status == Invalid && r.outcome.reply.data == None
    ensures id !in st.orders ==> r == Step(Resolved(Failure(Invalid, InvalidType, "The Order is not existed")), st)
    ensures id in st.orders && st.orders[id].isPaid == Paid ==>
      r == Step(Resolved(Failure(Invalid, InvalidType, "Cannot cancel order that has been paid")), st)
    ensures r.outcome.reply.succeeded ==>
      var o := st.orders[id];
      && r.outcome == Resolved(Success(ActionSuccess, "Order cancelled successfully", o.(status := Cancelled)))
      && r.store == st.(orders := st.orders[id := o.(status := Cancelled)])
  {
    if id !in st.orders then
      Step(Resolved(Failure(Invalid, InvalidType, "The Order is not existed")), st)
    else
      CancelChecked(st, id)
  }

  /** `cancelOrderOfMe`: not-found, then ownership, then the paid check. */
  function CancelOrderOfMe(st: Store, user: UserId, id: OrderId): (r: Step<Order>)
    ensures r.outcome.Resolved?
    ensures r.outcome.reply.succeeded <==>
      id in st.orders && st.orders[id].user == user && st.orders[id].isPaid != Paid
    ensures !r.outcome.reply.succeeded ==> r.store == st && r.outcome.reply.data == None
    ensures id !in st.orders ==> r == Step(Resolved(Failure(Invalid, InvalidType, "The Order is not existed")), st)
    ensures id in st.orders && st.orders[id].user != user ==>
      r == Step(Resolved(Failure(Unauthorized, UnauthorizedType, "You no has permission")), st)
    ensures id in st.orders && st.orders[id].user == user && st.orders[id].isPaid == Paid ==>
      r == Step(Resolved(Failure(Invalid, InvalidType, "Cannot cancel order that has been paid")), st)
    ensures r.outcome.reply.succeeded ==>
      var o := st.orders[id];
      && r.outcome == Resolved(Success(ActionSuccess, "Order cancelled successfully", o.(status := Cancelled)))
      && r.store == st.(orders := st.orders[id := o.(status := Cancelled)])
  {
    if id !in st.orders then
      Step(Resolved(Failure(Invalid, InvalidType, "The Order is not existed")), st)
    else if st.orders[id].user != user then
      Step(Resolved(Failure(Unauthorized, UnauthorizedType, "You no has permission")), st)
    else
      CancelChecked(st, id)
  }
}

=== FILE: orders.dfy ===
/** The records the order service reads and writes, and the store that holds
    them: products by id, orders by id and payment types by id. */
module Orders {
  import opened Values
  import opened Replies
  import opened Stock

  type OrderId = string
  type UserId = string
  type PaymentTypeId = string

  datatype Address = Address(fullName: string, address: string, city: string, phone: string)

  /** An order document. `isPaid` is the integer flag the service compares with
      1; `status` is 0 (awaiting payment), 1 (the default) or 3 (cancelled). */
  datatype Order = Order(
    user: UserId,
    orderItems: seq<LineItem>,
    shippingAddress: Address,
    paymentMethod: Option<PaymentTypeId>,
    deliveryMethod: Option<string>,
    itemsPrice: int,
    shippingPrice: int,
    totalPrice: int,
    isPaid: int,
    paidAt: Option<string>,
    isDelivered: bool,
    deliveryAt: Option<string>,
    status: int)

  /** A payment type; only its `kind` (the `type` field) matters here. */
  datatype PaymentType = PaymentType(name: string, kind: string)

  datatype Store = Store(
    products: Products,
    orders: map<OrderId, Order>,
    paymentTypes: map<PaymentTypeId, PaymentType>)

  /** What an operation returns together with the store it leaves behind. */
  datatype Step<T> = Step(outcome: Outcome<T>, store: Store)

  const AwaitingPayment: int := 0
  /** The status an order document gets when none is given at creation. */
  const DefaultStatus: int := 1
  const Cancelled: int := 3
  /** The `isPaid` value that forbids cancellation. */
  const Paid: int := 1
  /** The payment type kind "pay on delivery"; its actual text is configuration
      outside this model, only its identity matters. */
  const PaymentLater: string := "PAYMENT_LATER"
}

=== FILE: replies.dfy ===
/** The uniform result envelope every order-service operation hands back, and
    the distinction between a resolved reply and a rejected call. */
module Replies {
  import opened Values

  /** The envelope's `status` code. The numeric values live in a configuration
      file that is not part of this model, so only their identity is kept. */
  datatype Code = ActionSuccess | GetSuccess | Invalid | Unauthorized | InternalError

  /** The envelope's `typeError` tag: empty on success, else the failure kind. */
  datatype ErrorType = NoErrorType | InvalidType | UnauthorizedType

  /** `{status, statusMessage, typeError, message, data}`; `succeeded` stands for
      `statusMessage` being "Success" rather than "Error". */
  datatype Envelope<T> = Envelope(
    status: Code,
    succeeded: bool,
    typeError: ErrorType,
    message: string,
    data: Option<T>)

  /** Why a call rejected its promise instead of resolving an envelope. */
  datatype Fault =
    | PaymentTypeMissing(paymentMethod: string)  // `findPayment.type` on a null lookup
    | DuplicateOrderId(id: string)                // the store refuses a second order with the same id
    | OrderNotFound(id: string)                   // `updateOrder` rejects a missing order

  datatype Outcome<T> = Resolved(reply: Envelope<T>) | Rejected(fault: Fault)

  function Success<T>(code: Code, message: string, data: T): Envelope<T>
  {
    Envelope(code, true, NoErrorType, message, Some(data))
  }

  function Failure<T>(code: Code, typeError: ErrorType, message: string): Envelope<T>
  {
    Envelope(code, false, typeError, message, None)
  }

  /** A resolved envelope that carries a payload. */
  predicate Delivered<T>(o: Outcome<T>) {
    o.Resolved? && o.reply.data.Some?
  }
}

=== FILE: stock.dfy ===
/** The product counters an order touches: a conditional reservation that
    moves `amount` from `countInStock` to `sold`, and the unconditional
    restoration that moves it back when an order is deleted. */
module Stock {
  import opened Replies

  type ProductId = string

  datatype Product = Product(countInStock: int, sold: int)

  /** One entry of an order's `orderItems`. */
  datatype LineItem = LineItem(product: ProductId, amount: int, name: string, price: int)

  type Products = map<ProductId, Product>

  /** What `updateProductStock` resolves: the updated product, or an error
      envelope tagged with the product id (`Invalid` when the conditional update
      matched nothing, `InternalError` when the store raised). */
  datatype Reservation = Reserved(updated: Product) | Refused(status: Code, id: ProductId)

  /** The filter of the conditional update: the product exists and has at least
      `amount` in stock. */
  predicate CanReserve(ps: Products, item: LineItem) {
    item.product in ps && ps[item.product].countInStock >= item.amount
  }

  /** Units of a product that are either in stock or sold; reservation and
      restoration only move units between the two counters. */
  function Units(p: Product): int {
    p.countInStock + p.sold
  }

  /** `updateProductStock(item)`; `storeFails` stands for the store raising
      an error while running the update. */
  function Reserve(ps: Products, item: LineItem, storeFails: bool): (r: (Reservation, Products))
    ensures r.0.Reserved? <==> !storeFails && CanReserve(ps, item)
    ensures r.1.Keys == ps.Keys
    ensures forall id :: id in ps && id != item.product ==> r.1[id] == ps[id]
    ensures r.0.Reserved? ==>
      && r.0.updated == r.1[item.product]
      && r.1[item.product].countInStock == ps[item.product].countInStock - item.amount
      && r.1[item.product].sold == ps[item.product].sold + item.amount
      && r.1[item.product].countInStock >= 0
    ensures r.0.Refused? ==>
      && r.1 == ps
      && r.0.id == item.product
      && r.0.status == (if storeFails then InternalError else Invalid)
  {
    if storeFails then
      (Refused(InternalError, item.product), ps)
    else if CanReserve(ps, item) then
      var p := ps[item.product];
      var updated := Product(p.countInStock - item.amount, p.sold + item.amount);
      (Reserved(updated), ps[item.product := updated])
    else
      (Refused(Invalid, item.product), ps)
  }

  /** The per-item step of `deleteOrderProduct`: a missing product is skipped,
      an existing one gets `amount` back in stock and `amount` off `sold`. */
  function Restore(ps: Products, item: LineItem): (r: Products)
    ensures r.Keys == ps.Keys
    ensures forall id :: id in ps && id != item.product ==> r[id] == ps[id]
    ensures item.product in ps ==>
      && r[item.product].countInStock == ps[item.product].countInStock + item.amount
      && r[item.product].sold == ps[item.product].sold - item.amount
  {
    if item.product in ps then
      var p := ps[item.product];
      ps[item.product := Product(p.countInStock + item.amount, p.sold - item.amount)]
    else
      ps
  }

  /** Sum of the amounts the items request of product `id`. */
  function Demand(items: seq<LineItem>, id: ProductId): int
  {
    if |items| == 0 then 0
    else
      var last := items[|items| - 1];
      Demand(items[..|items| - 1], id) + (if last.product == id then last.amount else 0)
  }

  /** Sum of the amounts actually reserved for product `id`: the items for `id`
      whose reservation result is `Reserved`. */
  function Granted(items: seq<LineItem>, results: seq<Reservation>, id: ProductId): int
    requires |results| == |items|
  {
    if |items| == 0 then 0
    else
      var n := |items| - 1;
      Granted(items[..n], results[..n], id) + (if items[n].product == id && results[n].Reserved? then items[n].amount else 0)
  }

  predicate AllReserved(results: seq<Reservation>) {
    forall k :: 0 <= k < |results| ==> results[k].Reserved?
  }

  /** The reservations of `createOrder`, one per line item, run left to right;
      item `k` meets a store error when `k` is in `faulty`. A reservation that
      succeeded stays applied whatever happens to the other items. */
  function ReserveAll(ps: Products, items: seq<LineItem>, faulty: set<nat>): (r: (seq<Reservation>, Products))
    ensures |r.0| == |items|
    ensures r.1.Keys == ps.Keys
    ensures forall k :: 0 <= k < |items| && r.0[k].Refused? ==> r.0[k].id == items[k].product
    ensures forall k :: 0 <= k < |items| && k in faulty ==> r.0[k].Refused?
    ensures forall id :: id in ps ==>
      && r.1[id].countInStock == ps[id].countInStock - Granted(items, r.0, id)
      && r.1[id].sold == ps[id].sold + Granted(items, r.0, id)
    ensures forall id :: id in ps ==> Units(r.1[id]) == Units(ps[id])
    ensures forall id :: id in ps && ps[id].countInStock >= 0 ==> r.1[id].countInStock >= 0
    decreases |items|
  {
    if |items| == 0 then ([], ps)
    else
      var n := |items| - 1;
      var before := ReserveAll(ps, items[..n], faulty);
      var step := Reserve(before.1, items[n], n in faulty);
      LedgerStep(ps, items, faulty, before.0, before.1, step.0, step.1);
      (before.0 + [step.0], step.1)
  }

  /** The inductive step of `ReserveAll`: if the counters after the first
      items reflect what was granted to them, then so do the counters after
      one more reservation. */
  lemma {:induction false} LedgerStep(ps: Products, items: seq<LineItem>, faulty: set<nat>, rs: seq<Reservation>,
                                      mid: Products, res: Reservation, out: Products)
    requires |items| > 0 && |rs| == |items| - 1
    requires (res, out) == Reserve(mid, items[|items| - 1], |items| - 1 in faulty)
    requires mid.Keys == ps.Keys
    requires forall k :: 0 <= k < |rs| && rs[k].Refused? ==> rs[k].id == items[k].product
    requires forall k :: 0 <= k < |rs| && k in faulty ==> rs[k].Refused?
    requires forall id :: id in ps ==>
      && mid[id].countInStock == ps[id].countInStock - Granted(items[..|items| - 1], rs, id)
      && mid[id].sold == ps[id].sold + Granted(items[..|items| - 1], rs, id)
    requires forall id :: id in ps && ps[id].countInStock >= 0 ==> mid[id].countInStock >= 0
    ensures out.Keys == ps.Keys
    ensures forall k :: 0 <= k < |items| && (rs + [res])[k].Refused? ==> (rs + [res])[k].id == items[k].product
    ensures forall k :: 0 <= k < |items| && k in faulty ==> (rs + [res])[k].Refused?
    ensures forall id :: id in ps ==>
      && out[id].countInStock == ps[id].countInStock - Granted(items, rs + [res], id)
      && out[id].sold == ps[id].sold + Granted(items, rs + [res], id)
    ensures forall id :: id in ps ==> Units(out[id]) == Units(ps[id])
    ensures forall id :: id in ps && ps[id].countInStock >= 0 ==> out[id].countInStock >= 0
  {
    var n := |items| - 1;
    var all := rs + [res];
    assert all[..n] == rs;
    assert all[n] == res;
    assert forall k :: 0 <= k < n ==> all[k] == rs[k];
    forall id | id in ps
      ensures out[id].countInStock == ps[id].countInStock - Granted(items, all, id)
      ensures out[id].sold == ps[id].sold + Granted(items, all, id)
    {
      assert Granted(items, all, id) == Granted(items[..n], rs, id) + (if items[n].product == id && res.Reserved? then items[n].amount else 0);
    }
  }

  /** The stock restoration of `deleteOrderProduct`, item by item. */
  function RestoreAll(ps: Products, items: seq<LineItem>): (r: Products)
    ensures r.Keys == ps.Keys
    ensures forall id :: id in ps ==>
      && r[id].countInStock == ps[id].countInStock + Demand(items, id)
      && r[id].sold == ps[id].sold - Demand(items, id)
    decreases |items|
  {
    if |items| == 0 then ps
    else Restore(RestoreAll(ps, items[..|items| - 1]), items[|items| - 1])
  }

  /** When every reservation succeeds, what was granted is what was asked. */
  lemma {:induction false} GrantedIsDemandWhenAllReserved(items: seq<LineItem>, results: seq<Reservation>, id: ProductId)
    requires |results| == |items|
    requires AllReserved(results)
    ensures Granted(items, results, id) == Demand(items, id)
    decreases |items|
  {
    if |items| > 0 {
      var n := |items| - 1;
      GrantedIsDemandWhenAllReserved(items[..n], results[..n], id);
    }
  }

  /** Restoring an item right after reserving it returns the counters to
      their starting values. */
  lemma RestoreUndoesReserve(ps: Products, item: LineItem, storeFails: bool)
    requires Reserve(ps, item, storeFails).0.Reserved?
    ensures Restore(Reserve(ps, item, storeFails).1, item) == ps
  {
    var mid := Reserve(ps, item, storeFails).1;
    var back := Restore(mid, item);
    assert back[item.product] == ps[item.product];
  }

  /** When every reservation of an order succeeds, each product has given up
      exactly the units the order asks of it, and units are conserved. */
  lemma {:induction false} ReserveAllTakesDemand(ps: Products, items: seq<LineItem>, faulty: set<nat>, id: ProductId)
    requires AllReserved(ReserveAll(ps, items, faulty).0)
    requires id in ps
    ensures ReserveAll(ps, items, faulty).1[id].countInStock == ps[id].countInStock - Demand(items, id)
    ensures ReserveAll(ps, items, faulty).1[id].sold == ps[id].sold + Demand(items, id)
    ensures Units(ReserveAll(ps, items, faulty).1[id]) == Units(ps[id])
  {
    GrantedIsDemandWhenAllReserved(items, ReserveAll(ps, items, faulty).0, id);
  }

  /** The reservations of a prefix of the items are the first reservations of
      the whole order: later items never change earlier outcomes. */
  lemma {:induction false} ReserveAllPrefix(ps: Products, items: seq<LineItem>, faulty: set<nat>, k: nat)
    requires k <= |items|
    ensures ReserveAll(ps, items, faulty).0[..k] == ReserveAll(ps, items[..k], faulty).0
    decreases |items|
  {
    if k < |items| {
      var n := |items| - 1;
      var before := ReserveAll(ps, items[..n], faulty);
      assert ReserveAll(ps, items, faulty).0[..k] == before.0[..k];
      ReserveAllPrefix(ps, items[..n], faulty, k);
      assert items[..n][..k] == items[..k];
    } else {
      assert items[..k] == items;
    }
  }

  /** Item `k` is reserved exactly when it meets no store error and the
      counters left by the items before it can cover it. */
  lemma {:induction false} ReservedInTurn(ps: Products, items: seq<LineItem>, faulty: set<nat>, k: nat)
    requires k < |items|
    ensures ReserveAll(ps, items, faulty).0[k] == Reserve(ReserveAll(ps, items[..k], faulty).1, items[k], k in faulty).0
    ensures ReserveAll(ps, items, faulty).0[k].Reserved?
            <==> k !in faulty && CanReserve(ReserveAll(ps, items[..k], faulty).1, items[k])
  {
    ReserveAllPrefix(ps, items, faulty, k + 1);
    var upTo := items[..k + 1];
    assert upTo[..k] == items[..k];
    assert upTo[k] == items[k];
    assert ReserveAll(ps, items, faulty).0[k] == ReserveAll(ps, upTo, faulty).0[k];
  }

  /** With non-negative amounts, the demand of a prefix never exceeds the
      demand of the whole order. */
  lemma {:induction false} DemandGrows(items: seq<LineItem>, id: ProductId, k: nat)
    requires k <= |items|
    requires forall j :: 0 <= j < |items| ==> items[j].amount >= 0
    ensures Demand(items[..k], id) <= Demand(items, id)
    decreases |items|
  {
    if k < |items| {
      var n := |items| - 1;
      DemandGrows(items[..n], id, k);
      assert items[..n][..k] == items[..k];
    } else {
      assert items[..k] == items;
    }
  }

  /** With non-negative amounts, what was granted is never negative. */
  lemma {:induction false} GrantedNonNegative(items: seq<LineItem>, results: seq<Reservation>, id: ProductId)
    requires |results| == |items|
    requires forall j :: 0 <= j < |items| ==> items[j].amount >= 0
    ensures Granted(items, results, id) >= 0
    decreases |items|
  {
    if |items| > 0 {
      var n := |items| - 1;
      GrantedNonNegative(items[..n], results[..n], id);
    }
  }

  /** When every product exists, no item meets a store error, and each
      product has at least the units the whole order asks of it, every
      reservation succeeds. */
  lemma {:induction false} SufficientStockReservesAll(ps: Products, items: seq<LineItem>, faulty: set<nat>)
    requires forall k :: 0 <= k < |items| ==> items[k].amount >= 0 && items[k].product in ps && k !in faulty
    requires forall id :: id in ps ==> Demand(items, id) <= ps[id].countInStock
    ensures AllReserved(ReserveAll(ps, items, faulty).0)
    decreases |items|
  {
    if |items| > 0 {
      var n := |items| - 1;
      var item := items[n];
      forall id | id in ps
        ensures Demand(items[..n], id) <= ps[id].countInStock
      {
        DemandGrows(items, id, n);
      }
      SufficientStockReservesAll(ps, items[..n], faulty);
      var before := ReserveAll(ps, items[..n], faulty);
      GrantedIsDemandWhenAllReserved(items[..n], before.0, item.product);
      assert before.1[item.product].countInStock >= item.amount;
      ReservedInTurn(ps, items, faulty, n);
      var all := ReserveAll(ps, items, faulty).0;
      assert all == before.0 + [all[n]];
      assert all[n].Reserved?;
    }
  }

  /** With non-negative amounts, an item whose product is missing, or whose
      amount is more than the product had before the order, is refused. */
  lemma {:induction false} ShortItemIsRefused(ps: Products, items: seq<LineItem>, faulty: set<nat>, k: nat)
    requires forall j :: 0 <= j < |items| ==> items[j].amount >= 0
    requires k < |items|
    requires items[k].product !in ps || items[k].amount > ps[items[k].product].countInStock
    ensures ReserveAll(ps, items, faulty).0[k].Refused?
  {
    ReservedInTurn(ps, items, faulty, k);
    var before := ReserveAll(ps, items[..k], faulty);
    GrantedNonNegative(items[..k], before.0, items[k].product);
  }

  /** Reserving every item of an order and then restoring them all returns the
      product counters to their original values. */
  lemma {:induction false} RestoreAllUndoesReserveAll(ps: Products, items: seq<LineItem>, faulty: set<nat>)
    requires AllReserved(ReserveAll(ps, items, faulty).0)
    ensures RestoreAll(ReserveAll(ps, items, faulty).1, items) == ps
  {
    var mid := ReserveAll(ps, items, faulty).1;
    var back := RestoreAll(mid, items);
    assert mid.Keys == ps.Keys && back.Keys == ps.Keys;
    forall id | id in ps
      ensures back[id] == ps[id]
    {
      ReserveAllTakesDemand(ps, items, faulty, id);
      assert back[id].countInStock == mid[id].countInStock + Demand(items, id);
      assert back[id].sold == mid[id].sold - Demand(items, id);
    }
    MapsAgree(back, ps);
  }

  /** Two product maps with the same keys and the same entries are equal. */
  lemma MapsAgree(a: Products, b: Products)
    requires a.Keys == b.Keys
    requires forall id :: id in b ==> a[id] == b[id]
    ensures a == b
  {
  }
}

=== FILE: text.dfy ===
/** String splitting and joining on a one-character separator, as JavaScript's
    `String.prototype.split` and `Array.prototype.join` behave for it. */
module Text {

  /** Number of occurrences of `c` in `s`. */
  function Occurrences(s: string, c: char): nat
  {
    if |s| == 0 then 0 else (if s[0] == c then 1 else 0) + Occurrences(s[1..], c)
  }

  /** `s.split(sep)`: the maximal runs between separators, so "" gives [""] and
      "a||b" gives ["a", "", "b"]. */
  function Split(s: string, sep: char): (parts: seq<string>)
    ensures |parts| == Occurrences(s, sep) + 1
    ensures forall k :: 0 <= k < |parts| ==> sep !in parts[k]
    decreases |s|
  {
    if |s| == 0 then [""]
    else
      var rest := Split(s[1..], sep);
      if s[0] == sep then [""] + rest
      else [[s[0]] + rest[0]] + rest[1..]
  }

  /** `parts.join(sep)`: the empty list joins to "". */
  function Join(parts: seq<string>, sep: char): string
  {
    if |parts| == 0 then ""
    else if |parts| == 1 then parts[0]
    else parts[0] + [sep] + Join(parts[1..], sep)
  }

  lemma {:induction false} OccurrencesZero(s: string, c: char)
    ensures Occurrences(s, c) == 0 <==> c !in s
    decreases |s|
  {
    if |s| > 0 {
      OccurrencesZero(s[1..], c);
      assert s == [s[0]] + s[1..];
    }
  }

  /** A string splits into more than one part exactly when it contains the
      separator. */
  lemma SplitIsListExactlyWhenSeparated(s: string, sep: char)
    ensures |Split(s, sep)| > 1 <==> sep in s
  {
    OccurrencesZero(s, sep);
  }

  /** Joining the parts of a split with the same separator gives back the string. */
  lemma {:induction false} JoinSplit(s: string, sep: char)
    ensures Join(Split(s, sep), sep) == s
    decreases |s|
  {
    if |s| > 0 {
      var rest := Split(s[1..], sep);
      JoinSplit(s[1..], sep);
      if s[0] == sep {
        assert Split(s, sep) == [""] + rest;
        assert ([""] + rest)[1..] == rest;
        assert s == [sep] + s[1..];
      } else {
        var parts := [[s[0]] + rest[0]] + rest[1..];
        assert Split(s, sep) == parts;
        if |rest| == 1 {
          assert s == [s[0]] + s[1..];
        } else {
          assert parts[1..] == rest[1..];
          assert s == [s[0]] + s[1..];
        }
      }
    }
  }

  /** Splitting a join of separator-free parts gives back the parts. */
  lemma {:induction false} SplitJoin(parts: seq<string>, sep: char)
    requires |parts| >= 1
    requires forall k :: 0 <= k < |parts| ==> sep !in parts[k]
    ensures Split(Join(parts, sep), sep) == parts
    decreases |parts|
  {
    if |parts| == 1 {
      SplitNoSeparator(parts[0], sep);
    } else {
      SplitJoin(parts[1..], sep);
      SplitPrefix(parts[0], Join(parts[1..], sep), sep);
    }
  }

  /** A string without the separator splits into itself alone. */
  lemma {:induction false} SplitNoSeparator(s: string, sep: char)
    requires sep !in s
    ensures Split(s, sep) == [s]
    decreases |s|
  {
    if |s| > 0 {
      SplitNoSeparator(s[1..], sep);
      assert s == [s[0]] + s[1..];
    }
  }

  /** Splitting `a + sep + b` with `a` separator-free puts `a` in front of the
      split of `b`. */
  lemma {:induction false} SplitPrefix(a: string, b: string, sep: char)
    requires sep !in a
    ensures Split(a + [sep] + b, sep) == [a] + Split(b, sep)
    decreases |a|
  {
    if |a| == 0 {
      assert a + [sep] + b == [sep] + b;
      assert ([sep] + b)[1..] == b;
    } else {
      var s := a + [sep] + b;
      assert s[0] == a[0];
      assert s[1..] == a[1..] + [sep] + b;
      SplitPrefix(a[1..], b, sep);
      assert a == [a[0]] + a[1..];
    }
  }
}

=== FILE: values.dfy ===
/** Optional values and the JavaScript truthiness rules the order service
    relies on when it reads request fields with `x || y`, `x ?? y` and `if (x)`. */
module Values {

  /** A request field that may be missing (`undefined` or `null`). */
  datatype Option<+T> = None | Some(value: T) {

    /** The value, or `default` when the field is missing (JavaScript's `??`). */
    function OrElse(default: T): T {
      match this
      case Some(v) => v
      case None => default
    }
  }

  /** A string field is truthy when present and non-empty. */
  predicate TruthyText(s: Option<string>) {
    s.Some? && s.value != ""
  }

  /** A number field is truthy when present and non-zero. */
  predicate TruthyNumber(n: Option<int>) {
    n.Some? && n.value != 0
  }
}
